=== FILE: README.md ===
# Task tracker and accounting consumer — a Dafny model

This project models the decision logic of a two-service task system.

- **Task tracker.** The `User` entity's role predicates, and the four actions
  of `TaskController`: list, create, complete and mass-reassign tasks. Each
  action is a step over a state. The state holds the task table, keyed by
  public id, and an outbox of published envelopes. Listing changes nothing
  and publishes nothing. Creating or completing a task either rejects with an
  HTTP status (400, 401, 422) or persists its change and publishes one
  versioned event envelope; a failed schema check rejects with 422 after the
  change is persisted. Mass reassignment persists and publishes one envelope
  per assigned task, and can reject with 422 after some of them were
  published.
- **Accounting.** `TaskStreamConsumer::execute`. It turns one decoded message
  into an ordered list of service calls, plus an acknowledgement.

Modules, in dependency order:

- `Common`: `Option`, identifiers, `NoDuplicates`, first positions in a sequence.
- `Roles`: `User.php`. Covers `getRoles` (`array_unique` of the stored roles
  plus `ROLE_USER`), `canManageTasks` and `mightBeAssignedToTask`.
- `Tasks`: the task record. The entity methods of `Task.php` are kept abstract in
  `TaskEntity`: how `setAssignee` and `complete` change the status, and
  `mightBeMarkedAsCompleted`.
- `Events`: the three envelopes. All are version 2: `Task.Created` on
  `task_stream`, and `Task.Completed` and `Task.Assigned` on
  `task_lifecycle`. Also the predicate `FollowsEventContract`.
- `Store`: the state, replies, persist/publish, and the collaborators. The
  collaborators are the entity behaviour, the producer name and the
  JSON-schema check.
- `Reassignment`: the `foreach` loop of `taskMassReassign`.
  - `ReassignFrom` is that loop, one iteration per call.
  - `ReassignClosed` describes the loop's result directly. The loop stops at
    the first envelope that fails its schema. Every task up to and including
    that one is reassigned. The envelopes before it are published.
  - `ReassignLoopIsClosed` proves the loop and the closed form agree.
- `TaskController`: the four actions.
- `Lifecycle`: a request names an action. `Handle` serves one request and
  `Run` serves a sequence. The state invariant holds over any run: tasks keyed
  by their id, every envelope following the event contract.
- `Json`, `TaskStreamConsumer`: decoded messages and the consumer's dispatch.

The environment's choices are parameters:

- the assignee picked by the random resolver: `assignee`, or `pick(i)` for
  the i-th call in the reassign loop;
- generated event ids (`eventId`, `eventIds(i)`);
- the clock: `now` for the one reading of the create and complete actions,
  and, in the i-th reassign iteration, `stamps(i)` for `new \DateTime()` and
  `eventTimes(i)` for `time()`;
- the public id of a new task (`taskId`, required to be fresh);
- the order in which the repository returns assigned tasks (`found`,
  required to list each assigned task exactly once);
- the result of JSON-schema validation (`schemaValid`).

Where the intended behaviour and the code disagree, the model follows the
code:

- A consumer is expected to be idempotent under redelivery.
  `TaskStreamConsumer.php` has no deduplication: every delivery of an
  assigned `Task.Created` requests a transaction.
  `TaskStreamConsumer.RedeliveryRepeatsTransaction` proves that n deliveries
  request n transactions, under the loose comparison as written and under an
  exact one alike. Whether the transaction service deduplicates is
  not part of this model.
- The intended polarity of `mightBeAssignedToTask` is not stated anywhere. It is
  modelled literally: only a user holding both `ROLE_ADMIN` and
  `ROLE_MANAGER` is not assignable.

## Model

| member | source | states |
|---|---|---|
| Roles.Unique | task-tracker/src/Entity/User.php:91 | `array_unique`: keeps exactly the elements of the input, without duplicates, in order of first occurrence |
| Roles.GetRoles | task-tracker/src/Entity/User.php:86-92 | always contains `ROLE_USER`; holds exactly the stored roles plus `ROLE_USER`, without duplicates; `ROLE_USER` is added at the end only when it was not stored |
| Roles.AnyHeld | task-tracker/src/Entity/User.php:155-161 | the `foreach`/`in_array` loop is true iff some candidate role is held |
| Roles.Difference | task-tracker/src/Entity/User.php:150 | `array_diff`: exactly the elements of the first list absent from the second, and no longer than the first |
| Roles.CanManageTasks | task-tracker/src/Entity/User.php:153-162 | true iff the stored roles contain `ROLE_ADMIN` or `ROLE_MANAGER`; the same answer as on the stored roles without the implicit `ROLE_USER` |
| Roles.MightBeAssignedToTask | task-tracker/src/Entity/User.php:148-151 | true iff `ROLE_ADMIN` or `ROLE_MANAGER` is missing, so only a holder of both is unassignable; equal to `array_diff` over the stored roles being non-empty; every user can manage tasks or be assigned |
| TaskController.TaskList | task-tracker/src/Controller/TaskController.php:47-54 | a manager gets every task; anyone else gets exactly the tasks whose assignee is the caller, unchanged |
| TaskController.CreateTask | task-tracker/src/Controller/TaskController.php:61-111 | checks in order: name missing 400, bracket in name 422, jira_id missing 400; a rejection changes nothing. An accepted body adds exactly one task, whatever the schema says: it carries the given name and jira_id, is owned by the caller, is assigned to the resolved user, has the status `setAssignee` gives a new task and the request's clock reading. The reply is Ok iff the `Task.Created` envelope built from that task passes its schema. Success publishes exactly one envelope on `task_stream`, and it is the very `Task.Created` v2 envelope that passed the schema check (its time, producer and the task as data included). A schema failure is 422 with nothing published. |
| TaskController.CompleteTask | task-tracker/src/Controller/TaskController.php:114-161 | checks in order: unknown id 422, caller not the assignee 401, not completable 401; these change nothing. Otherwise only that task's status changes. Success publishes exactly one envelope on `task_lifecycle`, and it is the very `Task.Completed` v2 envelope that passed the schema check, naming the task and the assignee's public id (its name, jira id, time and producer included). A schema failure is 422 with nothing published. |
| TaskController.CompleteTwiceRefused | task-tracker/src/Controller/TaskController.php:126-129 | when completing leaves a status that is not completable, a second completion of the same task is refused with 401 and changes nothing |
| TaskController.MassReassign | task-tracker/src/Controller/TaskController.php:164-207 | a non-manager gets 401 and nothing changes; otherwise the result satisfies `ReassignedAsFound` (next row) |
| TaskController.ReassignAll | task-tracker/src/Controller/TaskController.php:170-206 | `ReassignedAsFound`: only assigned tasks change, never in identity. The i-th assigned task gets its i-th pick, the new status and the i-th `new \DateTime()` reading. The i-th new envelope is exactly the `Task.Assigned` v2 built from that task with the i-th event id and `time()` reading, it passed the schema check, and it is on `task_lifecycle` carrying the new assignee's public id. On success every assigned task is reassigned and announced. On a schema failure that task stays reassigned exactly as the loop left it (pick, new status, its `new \DateTime()` reading) but unannounced, the envelope built from it fails the schema, the later ones are untouched, and the reply is 422. |
| TaskController.ClosedFrame | task-tracker/src/Controller/TaskController.php:170-178 | the closed-form loop result keeps the key set, leaves non-assigned tasks alone and keeps every task's identity |
| TaskController.ClosedEnvelopes | task-tracker/src/Controller/TaskController.php:180-203 | the closed-form outbox appends one contract-following `Task.Assigned` envelope per task before the first rejected one, in repository order |
| TaskController.ClosedTasks | task-tracker/src/Controller/TaskController.php:174-201 | in the closed form, each task up to and including the first rejected one has its pick as assignee, the new status and its iteration's `new \DateTime()` reading; later ones are untouched; the reply is 422 iff some envelope was rejected |
| Reassignment.FirstRejected | task-tracker/src/Controller/TaskController.php:174-204 | the loop's stopping point: every envelope before it validates, and the one at it does not (unless it is the end) |
| Reassignment.Envelopes | task-tracker/src/Controller/TaskController.php:180-203 | the envelopes of a range of positions, one per position, in order |
| Reassignment.ReassignFromIsClosed | task-tracker/src/Controller/TaskController.php:174-204 | from any position, the loop as written reaches the closed-form state and reply |
| Reassignment.ReassignLoopIsClosed | task-tracker/src/Controller/TaskController.php:170-206 | the whole loop as written equals its closed-form description |
| Lifecycle.Handle | task-tracker/src/Controller/TaskController.php:44-207 | every action keeps tasks and identities, appends only contract-following envelopes, keeps the state invariant and rejects only with 400/401/422, changing nothing unless the code is 422; only a mass reassign can fail after publishing; listing changes nothing |
| Lifecycle.HandlePublishesValidated | task-tracker/src/Controller/TaskController.php:44-207 | whatever the request, every envelope it appends passed the JSON schema of its event name |
| Lifecycle.CreatePublishesValidated | task-tracker/src/Controller/TaskController.php:89-108 | creating a task publishes only a `Task.Created` envelope that passed `created/2.json` |
| Lifecycle.CompletePublishesValidated | task-tracker/src/Controller/TaskController.php:133-158 | completing a task publishes only a `Task.Completed` envelope that passed `completed/2.json` |
| Lifecycle.MassReassignPublishesValidated | task-tracker/src/Controller/TaskController.php:180-203 | mass reassignment publishes only `Task.Assigned` envelopes that passed `assigned/2.json`, also when it stops halfway |
| Lifecycle.CreateKeeps | task-tracker/src/Controller/TaskController.php:61-111 | the create action keeps the lifecycle guarantees |
| Lifecycle.CompleteKeeps | task-tracker/src/Controller/TaskController.php:114-161 | the complete action keeps the lifecycle guarantees |
| Lifecycle.MassReassignKeeps | task-tracker/src/Controller/TaskController.php:164-207 | the mass-reassign action keeps the lifecycle guarantees |
| Lifecycle.Run | task-tracker/src/Controller/TaskController.php:44-207 | over any sequence of requests, no task is lost or re-identified, the outbox only grows by contract-following envelopes, and the state invariant holds |
| Lifecycle.RunConcat | task-tracker/src/Controller/TaskController.php:44-207 | serving two batches in turn is serving their concatenation |
| TaskStreamConsumer.ExecuteAsWritten | accounting/src/Consumer/TaskStreamConsumer.php:24-42 | the consumer with PHP's loose `switch` comparison: always acknowledges; makes calls iff the event name is set and loosely equals `Task.Created` |
| TaskStreamConsumer.Execute | accounting/src/Consumer/TaskStreamConsumer.php:24-42 | always acknowledges. No event name means no calls. Calls happen iff the event is exactly `Task.Created`: at most two, each given `data`. A transaction is requested iff `data.status === "assigned"`, and before `createTask`, which is always the last call. |
| TaskStreamConsumer.AsWrittenAgreesOffTrue | accounting/src/Consumer/TaskStreamConsumer.php:31-32 | the loose and exact comparisons give the same outcome unless the event name is the JSON literal `true` |
| TaskStreamConsumer.TrueEventNameCreatesTask | accounting/src/Consumer/TaskStreamConsumer.php:31-37 | with `event_name: true`, the code as written makes both `Task.Created` calls, and the exact match makes none |
| TaskStreamConsumer.TransactionCount | accounting/src/Consumer/TaskStreamConsumer.php:34 | the number of transaction requests is at most the number of calls, and zero iff none of them is one |
| TaskStreamConsumer.Dispatch | accounting/src/Consumer/TaskStreamConsumer.php:24-42 | `execute` under either comparison (`Loose` is the code as written, `Exact` the corrected `Execute`): always acknowledges, makes calls iff the message selects the `Task.Created` branch under that comparison, and then makes exactly that branch's calls |
| TaskStreamConsumer.ConsumeAll | accounting/src/Consumer/TaskStreamConsumer.php:24-42 | consuming a batch under either comparison makes at most two calls per message, and none when no message selects the `Task.Created` branch under that comparison (for `Loose`: an event name of `Task.Created` or `true`) |
| TaskStreamConsumer.TransactionCountConcat | accounting/src/Consumer/TaskStreamConsumer.php:34 | transaction requests add up over concatenated call lists |
| TaskStreamConsumer.ConsumeConcat | accounting/src/Consumer/TaskStreamConsumer.php:24-42 | under either comparison the consumer keeps no state: consuming two batches in turn makes the calls of each, in order |
| TaskStreamConsumer.DispatchTransactionCount | accounting/src/Consumer/TaskStreamConsumer.php:31-37 | under either comparison, one message requests exactly one transaction if it selects the `Task.Created` branch and `data.status === "assigned"`, and none otherwise |
| TaskStreamConsumer.RepeatedTransactionCount | accounting/src/Consumer/TaskStreamConsumer.php:24-42 | under either comparison, delivering one message n times requests n times its transactions |
| TaskStreamConsumer.RedeliveryRepeatsTransaction | accounting/src/Consumer/TaskStreamConsumer.php:31-34 | under either comparison, n deliveries of a message that selects the `Task.Created` branch with `data.status === "assigned"` request n transactions: nothing deduplicates |

## Left out

- Stored roles are strings. PHP's loose `in_array` and `array_unique` comparisons on roles of other types are not modelled.
- `UserProvider.php` (the user lookup behind authentication) is not part of this model. The caller is a parameter.
- Doctrine `persist`/`flush`, RabbitMQ `publish` and Symfony request/token plumbing are I/O. They are modelled only as a map update and an outbox append. A failure of these calls is not modelled.
- The JsonSchema validator is a foreign library, and the schema files are not part of this model. Validation is the parameter `schemaValid(envelope, schemaPath)`.
- JSON encoding of envelopes is not modelled; an envelope is a record. Request bodies are already decoded (`CreateBody`). A body that fails to decode is `Malformed`. A `name` or `jira_id` that is present but not a string, and PHP's coercion of it, is not modelled.
- `Uuid::v4()`, `time()` and `new \DateTime()` are parameters. `event_time` is an integer rather than the string PHP formats.
- TaskController.CreateTask: the update time the `Task` constructor gives a new task is taken to be the same clock reading `now` as the event's `time()`; the two separate readings are not distinguished.
- `Task.php` is not part of this model. What `setAssignee`, `complete` and `mightBeMarkedAsCompleted` do to or with the status is an arbitrary function (`TaskEntity`). They are assumed to change nothing but the status, and `setAssignee` also the assignee; the properties hold for any status behaviour within that assumption. `toArray` is the whole task record (`TaskArray`).
- The assignee resolver's random choice, and its failure when no user is eligible, are not modelled. The pick is a parameter that always yields a user.
- The repository's order for `findBy(status = assigned)` is the parameter `found`, required to list each assigned task once. `findOneBy(publicId)` is a map lookup.
- The list action's JSON response is the filtered task map rather than a list of arrays.
- `TaskTransactionService` and `TaskService` are not part of this model. Their calls are recorded as effects, with no return value and no failure.
- TaskStreamConsumer.LooselyTaskCreated: PHP 8 comparison semantics are assumed for the consumer's `switch`. Under PHP 7, `0 == 'Task.Created'` also holds, so a numeric zero event name would be dispatched too; the PHP version is not fixed by the consumer's code.
- TaskStreamConsumer.Execute: a scalar `data` is not modelled. PHP reads a string offset of a string, or throws on it; the model reads null. Either way `=== 'assigned'` fails unless PHP throws, and the thrown case is not modelled. JSON floats are not modelled either.
- Concurrency, at-least-once delivery and cross-service ordering are not modelled, beyond redelivery as a repeated message in `ConsumeAll`.

## Findings

| source | as written | input that shows it | evidently intended | confidence | as-written member | corrected member |
|---|---|---|---|---|---|---|
| accounting/src/Consumer/TaskStreamConsumer.php:31-32 | `switch` compares `event_name` loosely, and in PHP 8 `true == 'Task.Created'` holds | `{"event_name": true, "data": {"status": "assigned"}}` requests a transaction and a task projection (`TrueEventNameCreatesTask`) | only the event name `Task.Created` is dispatched | low; not executed | TaskStreamConsumer.ExecuteAsWritten | TaskStreamConsumer.Execute |

=== FILE: common.dfy ===
/** Small shared vocabulary: optional values, identifiers, clock readings and sequence positions. */
module Common {

  /** A value that may be absent, as PHP's `isset` distinguishes. */
  datatype Option<+T> = None | Some(value: T)

  /** RFC 4122 identifiers are opaque strings here; how they are generated is not modelled. */
  type Uuid = string

  /** A clock reading in seconds, as `time()` returns it; its value is opaque. */
  type Time = int

  /** No element occurs twice. */
  predicate NoDuplicates<T(==)>(s: seq<T>)
  {
    forall i, j :: 0 <= i < j < |s| ==> s[i] != s[j]
  }

  /** Dropping the head of a concatenation drops it from the first part. */
  lemma TailOfConcat<T>(a: seq<T>, b: seq<T>)
    requires |a| > 0
    ensures (a + b)[0] == a[0]
    ensures (a + b)[1..] == a[1..] + b
  {
  }

  /** Position of the first occurrence of `x` in `s`. */
  function FirstIndex<T(==)>(s: seq<T>, x: T): (i: nat)
    requires x in s
    ensures i < |s| && s[i] == x
    ensures x !in s[..i]
  {
    if s[0] == x then 0
    else
      var i := 1 + FirstIndex(s[1..], x);
      assert s[..i] == [s[0]] + s[1..][..i - 1];
      i
  }

  /** Appending after `p` does not move the first occurrence of an element of `p`. */
  lemma {:induction false} FirstIndexOfPrefix<T>(p: seq<T>, q: seq<T>, x: T)
    requires x in p
    ensures FirstIndex(p + q, x) == FirstIndex(p, x)
    decreases |p|
  {
    if p[0] != x {
      assert (p + q)[1..] == p[1..] + q;
      FirstIndexOfPrefix(p[1..], q, x);
    }
  }
}

=== FILE: consumer.dfy ===
/**
 * The accounting service's consumer of the task stream. Each message is
 * acknowledged; a `Task.Created` message asks for a transaction when the task
 * arrives already assigned, and then always for the local task projection.
 */
module TaskStreamConsumer {
  import opened Json

  const TaskCreatedEventName: string := "Task.Created"
  const AssignedStatus: string := "assigned"

  /** A call into a service whose code is not part of this model, with its argument. */
  datatype Call =
    | CreateAssignedTaskTransaction(data: Json)   // TaskTransactionService
    | CreateTask(data: Json)                      // TaskService

  /** The calls made while handling one message, in order, and whether it is acknowledged. */
  datatype Outcome = Outcome(calls: seq<Call>, ack: bool)

  /** The message names an event: `isset($content['event_name'])`. */
  predicate HasEventName(content: Json)
  {
    IsSet(content, "event_name")
  }

  /** The message is exactly a `Task.Created` event. */
  predicate IsTaskCreated(content: Json)
  {
    Index(content, "event_name") == Str(TaskCreatedEventName)
  }

  /** `$content['data']['status'] === 'assigned'`. */
  predicate ArrivesAssigned(content: Json)
  {
    Index(Index(content, "data"), "status") == Str(AssignedStatus)
  }

  /**
   * PHP 8's loose `==` between a decoded JSON value and the non-numeric string
   * "Task.Created", as the `switch` applies it: equal strings match, and so
   * does `true`, which any non-empty string loosely equals.
   */
  predicate LooselyTaskCreated(v: Json)
  {
    v == Str(TaskCreatedEventName) || v == Bool(true)
  }

  /** The `Task.Created` branch: the transaction first when the task arrives assigned, then the projection. */
  function CreatedCalls(content: Json): seq<Call>
  {
    var data := Index(content, "data");
    (if ArrivesAssigned(content) then [CreateAssignedTaskTransaction(data)] else []) + [CreateTask(data)]
  }

  /** `execute` as written: its `switch` compares loosely. */
  function ExecuteAsWritten(content: Json): (r: Outcome)
    ensures r.ack
    ensures !HasEventName(content) ==> r.calls == []
    ensures r.calls != [] <==> HasEventName(content) && LooselyTaskCreated(Index(content, "event_name"))
  {
    if !HasEventName(content) then Outcome([], true)
    else if LooselyTaskCreated(Index(content, "event_name")) then Outcome(CreatedCalls(content), true)
    else Outcome([], true)
  }

  /** `execute` with the event name matched exactly. */
  function Execute(content: Json): (r: Outcome)
    // Every message is acknowledged, and one without an event name causes no call.
    ensures r.ack
    ensures !HasEventName(content) ==> r.calls == []
    // Only `Task.Created` causes calls: one or two, each given the message's `data`.
    ensures r.calls != [] <==> IsTaskCreated(content)
    ensures |r.calls| <= 2
    ensures forall i :: 0 <= i < |r.calls| ==> r.calls[i].data == Index(content, "data")
    // A transaction is requested exactly for a task that arrives assigned, and before the projection.
    ensures CreateAssignedTaskTransaction(Index(content, "data")) in r.calls <==>
              IsTaskCreated(content) && ArrivesAssigned(content)
    ensures |r.calls| == 2 ==> r.calls[0].CreateAssignedTaskTransaction? && r.calls[1].CreateTask?
    ensures r.calls != [] ==> r.calls[|r.calls| - 1] == CreateTask(Index(content, "data"))
  {
    if !HasEventName(content) then Outcome([], true)
    else if IsTaskCreated(content) then Outcome(CreatedCalls(content), true)
    else Outcome([], true)
  }

  /** Both readings agree unless the event name is the JSON literal `true`. */
  lemma AsWrittenAgreesOffTrue(content: Json)
    requires Index(content, "event_name") != Bool(true)
    ensures ExecuteAsWritten(content) == Execute(content)
  {
  }

  /** A message whose event name is `true` is handled as if it were `Task.Created`. */
  lemma TrueEventNameCreatesTask()
    ensures var content := Obj(map["event_name" := Bool(true), "data" := Obj(map["status" := Str(AssignedStatus)])]);
            && ExecuteAsWritten(content).calls
               == [CreateAssignedTaskTransaction(Index(content, "data")), CreateTask(Index(content, "data"))]
            && Execute(content).calls == []
  {
    var content := Obj(map["event_name" := Bool(true), "data" := Obj(map["status" := Str(AssignedStatus)])]);
    assert Index(content, "event_name") == Bool(true);
    assert Index(Index(content, "data"), "status") == Str(AssignedStatus);
  }

  /** The number of transaction requests among `calls`. */
  function TransactionCount(calls: seq<Call>): (n: nat)
    ensures n <= |calls|
    ensures n == 0 <==> forall i :: 0 <= i < |calls| ==> !calls[i].CreateAssignedTaskTransaction?
    decreases |calls|
  {
    if |calls| == 0 then 0
    else (if calls[0].CreateAssignedTaskTransaction? then 1 else 0) + TransactionCount(calls[1..])
  }

  /** How the `switch` compares the event name: `Loose` as written, `Exact` as intended. */
  datatype Comparison = Loose | Exact

  /** The message selects the `Task.Created` branch under `cmp`. */
  predicate Dispatched(cmp: Comparison, content: Json)
  {
    match cmp
    case Loose => LooselyTaskCreated(Index(content, "event_name"))
    case Exact => IsTaskCreated(content)
  }

  /** `execute` under either comparison. */
  function Dispatch(cmp: Comparison, content: Json): (r: Outcome)
    ensures r.ack
    ensures r.calls != [] <==> Dispatched(cmp, content)
    ensures r.calls != [] ==> r.calls == CreatedCalls(content)
  {
    match cmp
    case Loose => ExecuteAsWritten(content)
    case Exact => Execute(content)
  }

  /** The calls made while consuming `messages` one after another, each dispatched under `cmp`. */
  function ConsumeAll(cmp: Comparison, messages: seq<Json>): (r: seq<Call>)
    ensures |r| <= 2 * |messages|
    ensures (forall k :: 0 <= k < |messages| ==> !Dispatched(cmp, messages[k])) ==> r == []
    decreases |messages|
  {
    if |messages| == 0 then []
    else Dispatch(cmp, messages[0]).calls + ConsumeAll(cmp, messages[1..])
  }

  /** Transaction requests add up over concatenated call lists. */
  lemma {:induction false} TransactionCountConcat(a: seq<Call>, b: seq<Call>)
    ensures TransactionCount(a + b) == TransactionCount(a) + TransactionCount(b)
    decreases |a|
  {
    if |a| == 0 {
      assert a + b == b;
    } else {
      assert (a + b)[1..] == a[1..] + b;
      TransactionCountConcat(a[1..], b);
    }
  }

  /** Consuming two batches one after the other makes the calls of both, in order. */
  lemma {:induction false} ConsumeConcat(cmp: Comparison, a: seq<Json>, b: seq<Json>)
    ensures ConsumeAll(cmp, a + b) == ConsumeAll(cmp, a) + ConsumeAll(cmp, b)
    decreases |a|
  {
    if |a| == 0 {
      assert a + b == b;
    } else {
      assert (a + b)[0] == a[0];
      assert (a + b)[1..] == a[1..] + b;
      ConsumeConcat(cmp, a[1..], b);
    }
  }

  /**
   * One message requests one transaction if it selects the `Task.Created`
   * branch and its task arrives assigned, and none otherwise.
   */
  lemma DispatchTransactionCount(cmp: Comparison, content: Json)
    ensures TransactionCount(Dispatch(cmp, content).calls)
            == if Dispatched(cmp, content) && ArrivesAssigned(content) then 1 else 0
  {
    var once := Dispatch(cmp, content).calls;
    if Dispatched(cmp, content) && ArrivesAssigned(content) {
      assert once[1..][1..] == [];
    }
  }

  /** Consuming `n` copies of a message makes its calls, then those of the other `n - 1` copies. */
  lemma ConsumeRepeatedUnfold(cmp: Comparison, content: Json, n: nat)
    requires n > 0
    ensures ConsumeAll(cmp, seq(n, _ => content))
            == Dispatch(cmp, content).calls + ConsumeAll(cmp, seq(n - 1, _ => content))
  {
    var all := seq(n, _ => content);
    assert all[0] == content && all[1..] == seq(n - 1, _ => content);
  }

  /** `n` times `k` is one `k` more than `n - 1` times `k`. */
  lemma MultipleStep(n: nat, k: nat)
    requires n > 0
    ensures n * k == k + (n - 1) * k
  {
  }

  /** Delivering the same message `n` times requests `n` times its transactions. */
  lemma {:induction false} RepeatedTransactionCount(cmp: Comparison, content: Json, n: nat)
    ensures TransactionCount(ConsumeAll(cmp, seq(n, _ => content)))
            == n * TransactionCount(Dispatch(cmp, content).calls)
  {
    if n > 0 {
      var first := Dispatch(cmp, content).calls;
      var later := ConsumeAll(cmp, seq(n - 1, _ => content));
      ConsumeRepeatedUnfold(cmp, content, n);
      RepeatedTransactionCount(cmp, content, n - 1);
      TransactionCountConcat(first, later);
      MultipleStep(n, TransactionCount(first));
    }
  }

  /**
   * Nothing deduplicates: delivering `n` times a message that selects the
   * `Task.Created` branch with a task that arrives assigned requests `n`
   * transactions, under either comparison.
   */
  lemma RedeliveryRepeatsTransaction(cmp: Comparison, content: Json, n: nat)
    requires Dispatched(cmp, content) && ArrivesAssigned(content)
    ensures TransactionCount(ConsumeAll(cmp, seq(n, _ => content))) == n
  {
    DispatchTransactionCount(cmp, content);
    RepeatedTransactionCount(cmp, content, n);
  }
}

=== FILE: controller.dfy ===
/**
 * The task controller's four actions as steps over the tracker's state:
 * listing, creating, completing and mass-reassigning tasks. Listing changes
 * and publishes nothing. Creating or completing either rejects with an HTTP
 * status code or persists its change and publishes one envelope; a schema
 * failure rejects with 422 after the change is persisted. Mass reassignment
 * persists and publishes one envelope per assigned task, and can reject with
 * 422 after some of them were published.
 */
module TaskController {
  import opened Common
  import opened Roles
  import opened Tasks
  import opened Events
  import opened Store
  import opened Reassignment

  /** The tasks a caller may list: all of them for a manager, otherwise those assigned to the caller. */
  function TaskList(s: State, caller: User): (r: map<Uuid, Task>)
    ensures forall id :: id in r <==> id in s.tasks && (CanManageTasks(caller) || s.tasks[id].assignee.id == caller.id)
    ensures forall id :: id in r ==> r[id] == s.tasks[id]
    ensures CanManageTasks(caller) ==> r == s.tasks
  {
    if CanManageTasks(caller) then s.tasks
    else map id | id in s.tasks && s.tasks[id].assignee.id == caller.id :: s.tasks[id]
  }

  /** The decoded body of a create request; `Malformed` when it is not valid JSON. */
  datatype CreateBody = Malformed | Decoded(name: Option<string>, jiraId: Option<string>)

  predicate NamePresent(b: CreateBody)
  {
    b.Decoded? && b.name.Some?
  }

  predicate NameBracketed(b: CreateBody)
  {
    NamePresent(b) && ('[' in b.name.value || ']' in b.name.value)
  }

  /** A body that passes every check of the create action. */
  predicate Acceptable(b: CreateBody)
  {
    NamePresent(b) && !NameBracketed(b) && b.jiraId.Some?
  }

  /**
   * Creates a task owned by `caller` and assigned to `assignee` (the
   * resolver's pick) under the fresh public id `taskId`, then publishes its
   * `Task.Created` envelope on the stream routing key.
   */
  function CreateTask(c: Collaborators, s: State, caller: User, body: CreateBody,
                      taskId: Uuid, assignee: User, eventId: Uuid, now: Time): (r: Step)
    requires taskId !in s.tasks
    // Rejected requests change nothing; 400 for a missing name, or a clean name without jira_id.
    ensures !Acceptable(body) ==> r.state == s && r.reply.Fail?
    ensures r.reply == Fail(BadRequest) <==> !NamePresent(body) || (!NameBracketed(body) && body.jiraId.None?)
    // The name check comes before the jira_id check.
    ensures NameBracketed(body) ==> r.reply == Fail(Unprocessable)
    // An acceptable body persists exactly one new task, whatever the schema says.
    ensures Acceptable(body) ==>
              && r.state.tasks.Keys == s.tasks.Keys + {taskId}
              && |r.state.tasks| == |s.tasks| + 1
              && (forall id :: id in s.tasks ==> r.state.tasks[id] == s.tasks[id])
              && r.state.tasks[taskId].publicId == taskId
              && r.state.tasks[taskId].owner == caller
              && r.state.tasks[taskId].assignee == assignee
              && r.state.tasks[taskId].name == body.name.value
              && r.state.tasks[taskId].jiraId == body.jiraId.value
              && r.state.tasks[taskId].status == c.entity.afterAssign(c.entity.initialStatus)
              && r.state.tasks[taskId].updatedAt == now
    ensures r.reply.Ok? <==>
              Acceptable(body) && c.schemaValid(CreatedEvent(r.state.tasks[taskId], eventId, now, c.producer), CreatedSchema)
    // On success exactly one envelope is published: the validated `Task.Created` of the new task.
    ensures r.reply.Ok? ==>
              && r.reply.body == TaskBody(r.state.tasks[taskId])
              && r.state.outbox == s.outbox + [Published(CreatedEvent(r.state.tasks[taskId], eventId, now, c.producer), TaskStream)]
              && c.schemaValid(r.state.outbox[|s.outbox|].envelope, CreatedSchema)
              && |r.state.outbox| == |s.outbox| + 1
              && s.outbox <= r.state.outbox
              && r.state.outbox[|s.outbox|].routingKey == TaskStream
              && r.state.outbox[|s.outbox|].envelope.name == TaskCreatedName
              && r.state.outbox[|s.outbox|].envelope.version == EventVersion
              && r.state.outbox[|s.outbox|].envelope.eventId == eventId
              && r.state.outbox[|s.outbox|].envelope.data == TaskArray(r.state.tasks[taskId])
    // A schema failure keeps the persisted task and publishes nothing.
    ensures Acceptable(body) && !r.reply.Ok? ==> r.reply == Fail(Unprocessable) && r.state.outbox == s.outbox
    ensures WellKeyed(s.tasks) ==> WellKeyed(r.state.tasks)
    ensures AppendedByContract(s.outbox, r.state.outbox)
  {
    if !NamePresent(body) then Step(s, Fail(BadRequest))
    else if NameBracketed(body) then Step(s, Fail(Unprocessable))
    else if body.jiraId.None? then Step(s, Fail(BadRequest))
    else
      var t := NewTask(c.entity, taskId, body.name.value, body.jiraId.value, caller, assignee, now);
      ValidateAndPublish(c, Persist(s, taskId, t), CreatedEvent(t, eventId, now, c.producer),
                         CreatedSchema, TaskStream, TaskBody(t))
  }

  /** The caller may complete the task: it is the assignee and the task's status allows it. */
  predicate MayComplete(c: Collaborators, t: Task, caller: User)
  {
    t.assignee.id == caller.id && c.entity.mightBeMarkedAsCompleted(t.status)
  }

  /**
   * Completes the task with public id `id` on behalf of `caller`, then
   * publishes its `Task.Completed` envelope on the lifecycle routing key.
   */
  function CompleteTask(c: Collaborators, s: State, caller: User, id: Uuid,
                        eventId: Uuid, now: Time): (r: Step)
    // Checks, in order: the task exists (422), the caller is its assignee (401), it is completable (401).
    ensures id !in s.tasks ==> r == Step(s, Fail(Unprocessable))
    ensures r.reply == Fail(Unauthorized) <==> id in s.tasks && !MayComplete(c, s.tasks[id], caller)
    ensures r.reply == Fail(Unauthorized) ==> r.state == s
    // Otherwise only that task changes, and only in its status.
    ensures id in s.tasks && MayComplete(c, s.tasks[id], caller) ==>
              && r.state.tasks.Keys == s.tasks.Keys
              && (forall other :: other in s.tasks && other != id ==> r.state.tasks[other] == s.tasks[other])
              && r.state.tasks[id] == s.tasks[id].(status := c.entity.complete(s.tasks[id].status))
    ensures r.reply.Ok? <==>
              id in s.tasks && MayComplete(c, s.tasks[id], caller)
              && c.schemaValid(CompletedEvent(r.state.tasks[id], eventId, now, c.producer), CompletedSchema)
    // On success exactly one envelope is published: the validated `Task.Completed` of the completed
    // task, naming it and its assignee.
    ensures r.reply.Ok? ==>
              && r.reply.body == TaskBody(r.state.tasks[id])
              && r.state.outbox == s.outbox + [Published(CompletedEvent(r.state.tasks[id], eventId, now, c.producer), TaskLifecycle)]
              && c.schemaValid(r.state.outbox[|s.outbox|].envelope, CompletedSchema)
              && |r.state.outbox| == |s.outbox| + 1
              && s.outbox <= r.state.outbox
              && r.state.outbox[|s.outbox|].routingKey == TaskLifecycle
              && r.state.outbox[|s.outbox|].envelope.name == TaskCompletedName
              && r.state.outbox[|s.outbox|].envelope.version == EventVersion
              && r.state.outbox[|s.outbox|].envelope.eventId == eventId
              && r.state.outbox[|s.outbox|].envelope.data.CompletedData?
              && r.state.outbox[|s.outbox|].envelope.data.publicId == s.tasks[id].publicId
              && r.state.outbox[|s.outbox|].envelope.data.completedBy == s.tasks[id].assignee.publicId
              && r.state.outbox[|s.outbox|].envelope.data.status == r.state.tasks[id].status
    // A schema failure keeps the completed task and publishes nothing.
    ensures id in s.tasks && MayComplete(c, s.tasks[id], caller) && !r.reply.Ok? ==>
              r.reply == Fail(Unprocessable) && r.state.outbox == s.outbox
    ensures WellKeyed(s.tasks) ==> WellKeyed(r.state.tasks)
    ensures AppendedByContract(s.outbox, r.state.outbox)
  {
    if id !in s.tasks then Step(s, Fail(Unprocessable))
    else if s.tasks[id].assignee.id != caller.id then Step(s, Fail(Unauthorized))
    else if !c.entity.mightBeMarkedAsCompleted(s.tasks[id].status) then Step(s, Fail(Unauthorized))
    else
      var t := WithCompletion(c.entity, s.tasks[id]);
      ValidateAndPublish(c, Persist(s, id, t), CompletedEvent(t, eventId, now, c.producer),
                         CompletedSchema, TaskLifecycle, TaskBody(t))
  }

  /** A second completion is refused when completing leaves a status that is not completable. */
  lemma CompleteTwiceRefused(c: Collaborators, s: State, caller: User, id: Uuid,
                             eventId: Uuid, eventId': Uuid, now: Time, now': Time)
    requires id in s.tasks
    requires !c.entity.mightBeMarkedAsCompleted(c.entity.complete(s.tasks[id].status))
    ensures var first := CompleteTask(c, s, caller, id, eventId, now);
            first.reply.Ok? ==> CompleteTask(c, first.state, caller, id, eventId', now') == Step(first.state, Fail(Unauthorized))
  {
  }

  /** `found` is what the repository returns for status = assigned: each assigned task once. */
  predicate FoundAssigned(tasks: map<Uuid, Task>, found: seq<Uuid>)
  {
    && NoDuplicates(found)
    && (forall i :: 0 <= i < |found| ==> found[i] in tasks && tasks[found[i]].status == Assigned)
    && (forall id :: id in tasks && tasks[id].status == Assigned ==> id in found)
  }

  /**
   * The i-th published envelope is the validated `Task.Assigned` of the i-th
   * task, which now has the i-th pick as assignee; its data names the task,
   * its new status and the new assignee.
   */
  predicate AssignedAndAnnounced(c: Collaborators, s: State, found: seq<Uuid>,
                                 pick: nat -> User, eventIds: nat -> Uuid, stamps: nat -> Time, eventTimes: nat -> Time, r: Step)
    requires FoundAssigned(s.tasks, found)
    requires s.tasks.Keys == r.state.tasks.Keys
    requires |r.state.outbox| <= |s.outbox| + |found|
  {
    var m := |r.state.outbox| - |s.outbox|;
    forall i :: 0 <= i < m ==>
          && r.state.tasks[found[i]].assignee == pick(i)
          && r.state.tasks[found[i]].status == c.entity.afterAssign(Assigned)
          && r.state.tasks[found[i]].updatedAt == stamps(i)
          && r.state.outbox[|s.outbox| + i]
             == Published(AssignedEvent(WithAssignee(c.entity, s.tasks[found[i]], pick(i), stamps(i)),
                                        eventIds(i), eventTimes(i), c.producer), TaskLifecycle)
          && c.schemaValid(r.state.outbox[|s.outbox| + i].envelope, AssignedSchema)
          && r.state.outbox[|s.outbox| + i].envelope.data
             == AssignedData(s.tasks[found[i]].publicId, c.entity.afterAssign(Assigned), pick(i).publicId)
  }

  /**
   * What reassigning the tasks of `found` leaves behind. `m` is the number of
   * envelopes published: all of `found` on success, fewer when an envelope
   * fails its schema, in which case that task stays reassigned.
   */
  predicate ReassignedAsFound(c: Collaborators, s: State, found: seq<Uuid>,
                              pick: nat -> User, eventIds: nat -> Uuid, stamps: nat -> Time, eventTimes: nat -> Time, r: Step)
    requires FoundAssigned(s.tasks, found)
  {
    var m := |r.state.outbox| - |s.outbox|;
    && (r.reply == Ok(EmptyList) || r.reply == Fail(Unprocessable))
    // Only assigned tasks are touched, and never in their identity.
    && r.state.tasks.Keys == s.tasks.Keys
    && (forall id :: id in s.tasks && s.tasks[id].status != Assigned ==> r.state.tasks[id] == s.tasks[id])
    && (forall id :: id in s.tasks ==> SameIdentity(r.state.tasks[id], s.tasks[id]))
    && (WellKeyed(s.tasks) ==> WellKeyed(r.state.tasks))
    // Envelopes are only appended, by contract, at most one per assigned task.
    && AppendedByContract(s.outbox, r.state.outbox)
    && |r.state.outbox| <= |s.outbox| + |found|
    // Each published envelope announces its task's reassignment and passed its schema.
    && AssignedAndAnnounced(c, s, found, pick, eventIds, stamps, eventTimes, r)
    && (r.reply.Ok? ==> |r.state.outbox| == |s.outbox| + |found|)
    // A schema failure stops the loop: that task stays reassigned, its envelope is not published,
    // and the tasks after it are untouched.
    && (r.reply == Fail(Unprocessable) ==>
          && m < |found|
          && r.state.tasks[found[m]] == WithAssignee(c.entity, s.tasks[found[m]], pick(m), stamps(m))
          && !c.schemaValid(AssignedEvent(r.state.tasks[found[m]], eventIds(m), eventTimes(m), c.producer), AssignedSchema)
          && (forall i :: m < i < |found| ==> r.state.tasks[found[i]] == s.tasks[found[i]]))
  }

  /**
   * Gives every assigned task a new assignee (`pick(i)` for the `i`-th task of
   * `found`) and publishes one `Task.Assigned` envelope per task, after
   * checking once that the caller manages tasks.
   */
  function MassReassign(c: Collaborators, s: State, caller: User, found: seq<Uuid>,
                        pick: nat -> User, eventIds: nat -> Uuid, stamps: nat -> Time, eventTimes: nat -> Time): (r: Step)
    requires FoundAssigned(s.tasks, found)
    // Authorization comes before any task is read or changed.
    ensures !CanManageTasks(caller) <==> r == Step(s, Fail(Unauthorized))
    ensures CanManageTasks(caller) ==> ReassignedAsFound(c, s, found, pick, eventIds, stamps, eventTimes, r)
  {
    if !CanManageTasks(caller) then Step(s, Fail(Unauthorized))
    else
      ReassignAll(c, s, found, pick, eventIds, stamps, eventTimes);
      ReassignFrom(c, s, found, 0, pick, eventIds, stamps, eventTimes)
  }

  /** What the loop over all of `found` does, read off its closed form. */
  lemma ReassignAll(c: Collaborators, s: State, found: seq<Uuid>,
                    pick: nat -> User, eventIds: nat -> Uuid, stamps: nat -> Time, eventTimes: nat -> Time)
    requires FoundAssigned(s.tasks, found)
    ensures ReassignedAsFound(c, s, found, pick, eventIds, stamps, eventTimes, ReassignFrom(c, s, found, 0, pick, eventIds, stamps, eventTimes))
  {
    ReassignLoopIsClosed(c, s, found, pick, eventIds, stamps, eventTimes);
    ClosedIsAsFound(c, s, found, pick, eventIds, stamps, eventTimes);
  }

  /** The closed form of the loop leaves what `ReassignedAsFound` describes. */
  lemma ClosedIsAsFound(c: Collaborators, s: State, found: seq<Uuid>,
                        pick: nat -> User, eventIds: nat -> Uuid, stamps: nat -> Time, eventTimes: nat -> Time)
    requires FoundAssigned(s.tasks, found)
    ensures ReassignedAsFound(c, s, found, pick, eventIds, stamps, eventTimes, ReassignClosed(c, s, found, pick, eventIds, stamps, eventTimes))
  {
    ClosedFrame(c, s, found, pick, eventIds, stamps, eventTimes);
    ClosedEnvelopes(c, s, found, pick, eventIds, stamps, eventTimes);
    ClosedTasks(c, s, found, pick, eventIds, stamps, eventTimes);
  }

  /** The closed-form result touches only assigned tasks, and never their identity. */
  lemma ClosedFrame(c: Collaborators, s: State, found: seq<Uuid>,
                    pick: nat -> User, eventIds: nat -> Uuid, stamps: nat -> Time, eventTimes: nat -> Time)
    requires FoundAssigned(s.tasks, found)
    ensures var r := ReassignClosed(c, s, found, pick, eventIds, stamps, eventTimes);
            && r.state.tasks.Keys == s.tasks.Keys
            && (forall id :: id in s.tasks && s.tasks[id].status != Assigned ==> r.state.tasks[id] == s.tasks[id])
            && (forall id :: id in s.tasks ==> SameIdentity(r.state.tasks[id], s.tasks[id]))
            && (WellKeyed(s.tasks) ==> WellKeyed(r.state.tasks))
  {
    var r := ReassignClosed(c, s, found, pick, eventIds, stamps, eventTimes);
    forall id | id in s.tasks && s.tasks[id].status != Assigned
      ensures r.state.tasks[id] == s.tasks[id]
    {
      assert id !in found;
    }
  }

  /** The closed-form outbox: the old one followed by one `Task.Assigned` per accepted task, in order. */
  lemma ClosedEnvelopes(c: Collaborators, s: State, found: seq<Uuid>,
                        pick: nat -> User, eventIds: nat -> Uuid, stamps: nat -> Time, eventTimes: nat -> Time)
    requires FoundAssigned(s.tasks, found)
    ensures var r := ReassignClosed(c, s, found, pick, eventIds, stamps, eventTimes);
            && AppendedByContract(s.outbox, r.state.outbox)
            && |r.state.outbox| - |s.outbox| == FirstRejected(c, s.tasks, found, 0, pick, eventIds, stamps, eventTimes)
            && (forall i :: 0 <= i < |r.state.outbox| - |s.outbox| ==>
                  && r.state.outbox[|s.outbox| + i]
                     == Published(AssignedEvent(WithAssignee(c.entity, s.tasks[found[i]], pick(i), stamps(i)),
                                                eventIds(i), eventTimes(i), c.producer), TaskLifecycle)
                  && c.schemaValid(r.state.outbox[|s.outbox| + i].envelope, AssignedSchema)
                  && r.state.outbox[|s.outbox| + i].envelope.data
                     == AssignedData(s.tasks[found[i]].publicId, c.entity.afterAssign(Assigned), pick(i).publicId))
  {
    var n := FirstRejected(c, s.tasks, found, 0, pick, eventIds, stamps, eventTimes);
    var es := Envelopes(c, s.tasks, found, 0, n, pick, eventIds, stamps, eventTimes);
    forall i | 0 <= i < n
      ensures (s.outbox + es)[|s.outbox| + i] == Published(AssignedEnvelopeAt(c, s.tasks, found, i, pick, eventIds, stamps, eventTimes), TaskLifecycle)
      ensures s.tasks[found[i]].status == Assigned
    {
      assert es[0 + i] == Published(AssignedEnvelopeAt(c, s.tasks, found, 0 + i, pick, eventIds, stamps, eventTimes), TaskLifecycle);
    }
    forall k | 0 <= k < n
      ensures FollowsEventContract(es[k])
    {
      assert es[0 + k] == Published(AssignedEnvelopeAt(c, s.tasks, found, 0 + k, pick, eventIds, stamps, eventTimes), TaskLifecycle);
    }
    AppendingByContract(s.outbox, es);
  }

  /** The closed-form tasks: each accepted task and the rejected one carry their pick; later ones are untouched. */
  lemma ClosedTasks(c: Collaborators, s: State, found: seq<Uuid>,
                    pick: nat -> User, eventIds: nat -> Uuid, stamps: nat -> Time, eventTimes: nat -> Time)
    requires FoundAssigned(s.tasks, found)
    ensures var r := ReassignClosed(c, s, found, pick, eventIds, stamps, eventTimes);
            var n := FirstRejected(c, s.tasks, found, 0, pick, eventIds, stamps, eventTimes);
            && (forall i :: 0 <= i < n ==>
                  && r.state.tasks[found[i]].assignee == pick(i)
                  && r.state.tasks[found[i]].status == c.entity.afterAssign(Assigned)
                  && r.state.tasks[found[i]].updatedAt == stamps(i))
            && (r.reply.Ok? <==> n == |found|)
            && (r.reply == Ok(EmptyList) || r.reply == Fail(Unprocessable))
            && (r.reply == Fail(Unprocessable) ==>
                  && n < |found|
                  && r.state.tasks[found[n]] == WithAssignee(c.entity, s.tasks[found[n]], pick(n), stamps(n))
                  && !c.schemaValid(AssignedEvent(r.state.tasks[found[n]], eventIds(n), eventTimes(n), c.producer), AssignedSchema)
                  && (forall i :: n < i < |found| ==> r.state.tasks[found[i]] == s.tasks[found[i]]))
  {
    var r := ReassignClosed(c, s, found, pick, eventIds, stamps, eventTimes);
    var n := FirstRejected(c, s.tasks, found, 0, pick, eventIds, stamps, eventTimes);
    forall i | 0 <= i < |found|
      ensures r.state.tasks[found[i]] ==
                if i < Reached(found, n) then WithAssignee(c.entity, s.tasks[found[i]], pick(i), stamps(i))
                else s.tasks[found[i]]
    {
      FirstIndexOfDistinct(found, i);
    }
  }
}

=== FILE: events.dfy ===
/** Domain event envelopes the task controller builds and publishes. */
module Events {
  import opened Common
  import opened Tasks

  const EventVersion: int := 2

  const TaskCreatedName: string := "Task.Created"
  const TaskCompletedName: string := "Task.Completed"
  const TaskAssignedName: string := "Task.Assigned"

  /** Routing keys. */
  const TaskStream: string := "task_stream"
  const TaskLifecycle: string := "task_lifecycle"

  /** Schema documents each envelope is validated against before publishing. */
  const CreatedSchema: string := "json-schema/task/created/2.json"
  const CompletedSchema: string := "json-schema/task/completed/2.json"
  const AssignedSchema: string := "json-schema/task/assigned/2.json"

  /** The `data` member of an envelope. */
  datatype Payload =
    | TaskArray(task: Task)   // `$task->toArray()`; its exact fields belong to Task.php
    | CompletedData(publicId: Uuid, status: Status, completedBy: Uuid, name: string, jiraId: string)
    | AssignedData(publicId: Uuid, status: Status, assignee: Uuid)

  datatype Envelope = Envelope(
    eventId: Uuid,
    version: int,
    name: string,
    time: Time,
    producer: string,
    data: Payload)

  /** An envelope handed to the producer together with its routing key. */
  datatype Published = Published(envelope: Envelope, routingKey: string)

  function CreatedEvent(t: Task, eventId: Uuid, now: Time, producer: string): Envelope
  {
    Envelope(eventId, EventVersion, TaskCreatedName, now, producer, TaskArray(t))
  }

  function CompletedEvent(t: Task, eventId: Uuid, now: Time, producer: string): Envelope
  {
    Envelope(eventId, EventVersion, TaskCompletedName, now, producer,
             CompletedData(t.publicId, t.status, t.assignee.publicId, t.name, t.jiraId))
  }

  function AssignedEvent(t: Task, eventId: Uuid, now: Time, producer: string): Envelope
  {
    Envelope(eventId, EventVersion, TaskAssignedName, now, producer,
             AssignedData(t.publicId, t.status, t.assignee.publicId))
  }

  /**
   * The event contract: version 2, and each event name travels with its own
   * payload shape on its own routing key.
   */
  predicate FollowsEventContract(p: Published)
  {
    && p.envelope.version == EventVersion
    && (|| (p.envelope.name == TaskCreatedName && p.routingKey == TaskStream && p.envelope.data.TaskArray?)
        || (p.envelope.name == TaskCompletedName && p.routingKey == TaskLifecycle && p.envelope.data.CompletedData?)
        || (p.envelope.name == TaskAssignedName && p.routingKey == TaskLifecycle && p.envelope.data.AssignedData?))
  }
}

=== FILE: json.dfy ===
/**
 * Decoded JSON as `json_decode($body, true)` hands it to PHP: objects become
 * string-keyed arrays, and a body that does not decode becomes null.
 */
module Json {
  datatype Json =
    | Null
    | Bool(b: bool)
    | Num(n: int)
    | Str(s: string)
    | Arr(items: seq<Json>)
    | Obj(fields: map<string, Json>)

  /**
   * `$v[$key]` read without a guard: the member of an object, and null for a
   * missing key or a value that is not an object.
   */
  function Index(v: Json, key: string): Json
  {
    if v.Obj? && key in v.fields then v.fields[key] else Null
  }

  /** `isset($v[$key])`: the member exists and is not null. */
  predicate IsSet(v: Json, key: string)
  {
    Index(v, key) != Null
  }
}

=== FILE: lifecycle.dfy ===
/**
 * The task tracker as a whole: a request names one controller action, and
 * serving a sequence of requests threads the state through them. Whatever
 * the requests, tasks are never removed or re-identified, envelopes are only
 * ever appended, and every envelope follows the event contract.
 */
module Lifecycle {
  import opened Common
  import opened Roles
  import opened Tasks
  import opened Events
  import opened Store
  import opened TaskController

  /** One call of a controller action, with the values its environment supplies. */
  datatype Request =
    | ListTasks(caller: User)
    | CreateRequest(caller: User, body: CreateBody, taskId: Uuid, assignee: User, eventId: Uuid, now: Time)
    | CompleteRequest(caller: User, id: Uuid, eventId: Uuid, now: Time)
    | MassReassignRequest(caller: User, found: seq<Uuid>, pick: nat -> User, eventIds: nat -> Uuid, stamps: nat -> Time, eventTimes: nat -> Time)

  /**
   * What the environment guarantees about a request: a generated task id is
   * fresh, and the repository lists exactly the assigned tasks.
   */
  predicate Admissible(s: State, req: Request)
  {
    match req
    case CreateRequest(_, _, taskId, _, _, _) => taskId !in s.tasks
    case MassReassignRequest(_, found, _, _, _, _) => FoundAssigned(s.tasks, found)
    case _ => true
  }

  /** The state invariant: tasks are keyed by their public id and every envelope follows the contract. */
  predicate Consistent(s: State)
  {
    WellKeyed(s.tasks) && OutboxFollowsContract(s.outbox)
  }

  /**
   * What every action guarantees: no task is removed or changes identity,
   * envelopes are only appended and each new one follows the event contract,
   * the invariant is kept, every rejection is 400, 401 or 422, and only a 422
   * can follow a change.
   */
  predicate Keeps(s: State, r: Step)
  {
    && s.tasks.Keys <= r.state.tasks.Keys
    && (forall id :: id in s.tasks ==> SameIdentity(r.state.tasks[id], s.tasks[id]))
    && AppendedByContract(s.outbox, r.state.outbox)
    && (Consistent(s) ==> Consistent(r.state))
    && (r.reply.Fail? ==> r.reply.code in {BadRequest, Unauthorized, Unprocessable})
    && (r.reply.Fail? && r.reply.code != Unprocessable ==> r.state == s)
  }

  /** Serves one request. */
  function Handle(c: Collaborators, s: State, req: Request): (r: Step)
    requires Admissible(s, req)
    ensures Keeps(s, r)
    // Only a mass reassign can fail after publishing something.
    ensures r.reply.Fail? && !req.MassReassignRequest? ==> r.state.outbox == s.outbox
    // Listing changes nothing.
    ensures req.ListTasks? ==> r.state == s
  {
    match req
    case ListTasks(caller) =>
      ReadingKeeps(s, TaskListBody(TaskList(s, caller)));
      Step(s, Ok(TaskListBody(TaskList(s, caller))))
    case CreateRequest(caller, body, taskId, assignee, eventId, now) =>
      CreateKeeps(c, s, caller, body, taskId, assignee, eventId, now);
      CreateTask(c, s, caller, body, taskId, assignee, eventId, now)
    case CompleteRequest(caller, id, eventId, now) =>
      CompleteKeeps(c, s, caller, id, eventId, now);
      CompleteTask(c, s, caller, id, eventId, now)
    case MassReassignRequest(caller, found, pick, eventIds, stamps, eventTimes) =>
      MassReassignKeeps(c, s, caller, found, pick, eventIds, stamps, eventTimes);
      MassReassign(c, s, caller, found, pick, eventIds, stamps, eventTimes)
  }

  /** An action that only reads keeps the lifecycle guarantees. */
  lemma ReadingKeeps(s: State, body: Body)
    ensures Keeps(s, Step(s, Ok(body)))
  {
    assert s.outbox + [] == s.outbox;
    AppendingByContract(s.outbox, []);
  }

  /** Creating a task keeps the lifecycle guarantees, whichever check rejects it. */
  lemma CreateKeeps(c: Collaborators, s: State, caller: User, body: CreateBody,
                    taskId: Uuid, assignee: User, eventId: Uuid, now: Time)
    requires taskId !in s.tasks
    ensures var r := CreateTask(c, s, caller, body, taskId, assignee, eventId, now);
            Keeps(s, r) && (r.reply.Fail? ==> r.state.outbox == s.outbox)
  {
  }

  /** Completing a task keeps the lifecycle guarantees, whichever check rejects it. */
  lemma CompleteKeeps(c: Collaborators, s: State, caller: User, id: Uuid, eventId: Uuid, now: Time)
    ensures var r := CompleteTask(c, s, caller, id, eventId, now);
            Keeps(s, r) && (r.reply.Fail? ==> r.state.outbox == s.outbox)
  {
  }

  /** Mass reassignment keeps the lifecycle guarantees, even when it stops halfway. */
  lemma MassReassignKeeps(c: Collaborators, s: State, caller: User, found: seq<Uuid>,
                          pick: nat -> User, eventIds: nat -> Uuid, stamps: nat -> Time, eventTimes: nat -> Time)
    requires FoundAssigned(s.tasks, found)
    ensures Keeps(s, MassReassign(c, s, caller, found, pick, eventIds, stamps, eventTimes))
  {
    var r := MassReassign(c, s, caller, found, pick, eventIds, stamps, eventTimes);
    if CanManageTasks(caller) {
      assert ReassignedAsFound(c, s, found, pick, eventIds, stamps, eventTimes, r);
    }
  }

  /** Nothing is published without passing its schema: every envelope a request appends was validated. */
  lemma HandlePublishesValidated(c: Collaborators, s: State, req: Request)
    requires Admissible(s, req)
    ensures AppendedValidated(c, s.outbox, Handle(c, s, req).state.outbox)
  {
    match req
    case ListTasks(_) =>
    case CreateRequest(caller, body, taskId, assignee, eventId, now) =>
      CreatePublishesValidated(c, s, caller, body, taskId, assignee, eventId, now);
    case CompleteRequest(caller, id, eventId, now) =>
      CompletePublishesValidated(c, s, caller, id, eventId, now);
    case MassReassignRequest(caller, found, pick, eventIds, stamps, eventTimes) =>
      MassReassignPublishesValidated(c, s, caller, found, pick, eventIds, stamps, eventTimes);
  }

  /** Creating a task publishes only a validated `Task.Created`. */
  lemma CreatePublishesValidated(c: Collaborators, s: State, caller: User, body: CreateBody,
                                 taskId: Uuid, assignee: User, eventId: Uuid, now: Time)
    requires taskId !in s.tasks
    ensures AppendedValidated(c, s.outbox, CreateTask(c, s, caller, body, taskId, assignee, eventId, now).state.outbox)
  {
    var r := CreateTask(c, s, caller, body, taskId, assignee, eventId, now);
    if r.reply.Ok? {
      assert PassedItsSchema(c, CreatedEvent(r.state.tasks[taskId], eventId, now, c.producer));
    }
  }

  /** Completing a task publishes only a validated `Task.Completed`. */
  lemma CompletePublishesValidated(c: Collaborators, s: State, caller: User, id: Uuid, eventId: Uuid, now: Time)
    ensures AppendedValidated(c, s.outbox, CompleteTask(c, s, caller, id, eventId, now).state.outbox)
  {
    var r := CompleteTask(c, s, caller, id, eventId, now);
    if r.reply.Ok? {
      assert PassedItsSchema(c, CompletedEvent(r.state.tasks[id], eventId, now, c.producer));
    }
  }

  /** Mass reassignment publishes only validated `Task.Assigned` envelopes, even when it stops halfway. */
  lemma MassReassignPublishesValidated(c: Collaborators, s: State, caller: User, found: seq<Uuid>,
                                       pick: nat -> User, eventIds: nat -> Uuid, stamps: nat -> Time, eventTimes: nat -> Time)
    requires FoundAssigned(s.tasks, found)
    ensures AppendedValidated(c, s.outbox, MassReassign(c, s, caller, found, pick, eventIds, stamps, eventTimes).state.outbox)
  {
    var r := MassReassign(c, s, caller, found, pick, eventIds, stamps, eventTimes);
    if CanManageTasks(caller) {
      AnnouncedValidated(c, s, found, pick, eventIds, stamps, eventTimes, r);
    }
  }

  /** A result whose new envelopes each announce a reassignment appended only validated envelopes. */
  lemma AnnouncedValidated(c: Collaborators, s: State, found: seq<Uuid>,
                           pick: nat -> User, eventIds: nat -> Uuid, stamps: nat -> Time, eventTimes: nat -> Time, r: Step)
    requires FoundAssigned(s.tasks, found)
    requires s.tasks.Keys == r.state.tasks.Keys && s.outbox <= r.state.outbox && |r.state.outbox| <= |s.outbox| + |found|
    requires AssignedAndAnnounced(c, s, found, pick, eventIds, stamps, eventTimes, r)
    ensures AppendedValidated(c, s.outbox, r.state.outbox)
  {
    forall j | |s.outbox| <= j < |r.state.outbox|
      ensures PassedItsSchema(c, r.state.outbox[j].envelope)
    {
      var i := j - |s.outbox|;
      var e := AssignedEvent(WithAssignee(c.entity, s.tasks[found[i]], pick(i), stamps(i)), eventIds(i), eventTimes(i), c.producer);
      assert r.state.outbox[|s.outbox| + i] == Published(e, TaskLifecycle);
      assert c.schemaValid(e, AssignedSchema);
    }
  }

  /** Every request of `reqs` is admissible in the state the earlier ones leave. */
  predicate Feasible(c: Collaborators, s: State, reqs: seq<Request>)
    decreases |reqs|
  {
    |reqs| == 0 || (Admissible(s, reqs[0]) && Feasible(c, Handle(c, s, reqs[0]).state, reqs[1..]))
  }

  /** Serves `reqs` in order and returns the final state. */
  function Run(c: Collaborators, s: State, reqs: seq<Request>): (r: State)
    requires Feasible(c, s, reqs)
    ensures s.tasks.Keys <= r.tasks.Keys
    ensures forall id :: id in s.tasks ==> SameIdentity(r.tasks[id], s.tasks[id])
    ensures AppendedByContract(s.outbox, r.outbox)
    ensures Consistent(s) ==> Consistent(r)
    decreases |reqs|
  {
    if |reqs| == 0 then s
    else Run(c, Handle(c, s, reqs[0]).state, reqs[1..])
  }

  /** Serving two batches one after the other is serving their concatenation. */
  lemma {:induction false} RunConcat(c: Collaborators, s: State, a: seq<Request>, b: seq<Request>)
    requires Feasible(c, s, a)
    requires Feasible(c, Run(c, s, a), b)
    ensures Feasible(c, s, a + b)
    ensures Run(c, s, a + b) == Run(c, Run(c, s, a), b)
    decreases |a|
  {
    if |a| == 0 {
      assert a + b == b;
    } else {
      var s1 := Handle(c, s, a[0]).state;
      TailOfConcat(a, b);
      assert Run(c, s, a) == Run(c, s1, a[1..]);
      RunConcat(c, s1, a[1..], b);
    }
  }
}

=== FILE: reassignment.dfy ===
/**
 * The loop of the mass-reassign action: each task the repository returned
 * is given a new assignee and persisted, then its `Task.Assigned` envelope
 * is validated and published. A schema failure throws out of the loop,
 * leaving the tasks already handled — including the current one — persisted.
 *
 * ReassignFrom is the loop as written; ReassignClosed describes its result
 * directly, and ReassignLoopIsClosed proves the two agree.
 */
module Reassignment {
  import opened Common
  import opened Roles
  import opened Tasks
  import opened Events
  import opened Store

  /** The envelope built for the `i`-th task of `found`, from that task as it was before the loop. */
  function AssignedEnvelopeAt(c: Collaborators, tasks: map<Uuid, Task>, found: seq<Uuid>, i: nat,
                              pick: nat -> User, eventIds: nat -> Uuid, stamps: nat -> Time, eventTimes: nat -> Time): Envelope
    requires i < |found| && found[i] in tasks
  {
    AssignedEvent(WithAssignee(c.entity, tasks[found[i]], pick(i), stamps(i)), eventIds(i), eventTimes(i), c.producer)
  }

  /** Every task from position `k` on is in the table. */
  predicate AllFound(tasks: map<Uuid, Task>, found: seq<Uuid>, k: nat)
  {
    forall i :: k <= i < |found| ==> found[i] in tasks
  }

  /**
   * The loop from position `k`. `pick(i)` is the resolver's answer on its
   * `i`-th call and `eventIds(i)` the event id generated for the `i`-th envelope.
   */
  function ReassignFrom(c: Collaborators, s: State, found: seq<Uuid>, k: nat,
                        pick: nat -> User, eventIds: nat -> Uuid, stamps: nat -> Time, eventTimes: nat -> Time): Step
    requires k <= |found|
    requires AllFound(s.tasks, found, k)
    decreases |found| - k
  {
    if k == |found| then Step(s, Ok(EmptyList))
    else
      var t := WithAssignee(c.entity, s.tasks[found[k]], pick(k), stamps(k));
      var s1 := Persist(s, found[k], t);
      var e := AssignedEvent(t, eventIds(k), eventTimes(k), c.producer);
      if !c.schemaValid(e, AssignedSchema) then Step(s1, Fail(Unprocessable))
      else ReassignFrom(c, Publish(s1, e, TaskLifecycle), found, k + 1, pick, eventIds, stamps, eventTimes)
  }

  /** The first position from `k` on whose envelope fails its schema, or `|found|` when none does. */
  function FirstRejected(c: Collaborators, tasks: map<Uuid, Task>, found: seq<Uuid>, k: nat,
                         pick: nat -> User, eventIds: nat -> Uuid, stamps: nat -> Time, eventTimes: nat -> Time): (n: nat)
    requires k <= |found|
    requires AllFound(tasks, found, k)
    ensures k <= n <= |found|
    ensures forall i :: k <= i < n ==>
              c.schemaValid(AssignedEnvelopeAt(c, tasks, found, i, pick, eventIds, stamps, eventTimes), AssignedSchema)
    ensures n < |found| ==>
              !c.schemaValid(AssignedEnvelopeAt(c, tasks, found, n, pick, eventIds, stamps, eventTimes), AssignedSchema)
    decreases |found| - k
  {
    if k == |found| then k
    else if !c.schemaValid(AssignedEnvelopeAt(c, tasks, found, k, pick, eventIds, stamps, eventTimes), AssignedSchema) then k
    else FirstRejected(c, tasks, found, k + 1, pick, eventIds, stamps, eventTimes)
  }

  /** The published envelopes of positions `k` to `n`, in order. */
  function Envelopes(c: Collaborators, tasks: map<Uuid, Task>, found: seq<Uuid>, k: nat, n: nat,
                     pick: nat -> User, eventIds: nat -> Uuid, stamps: nat -> Time, eventTimes: nat -> Time): (r: seq<Published>)
    requires k <= n <= |found|
    requires AllFound(tasks, found, k)
    ensures |r| == n - k
    ensures forall j :: 0 <= j < n - k ==>
              r[j] == Published(AssignedEnvelopeAt(c, tasks, found, k + j, pick, eventIds, stamps, eventTimes), TaskLifecycle)
    decreases n - k
  {
    if k == n then []
    else [Published(AssignedEnvelopeAt(c, tasks, found, k, pick, eventIds, stamps, eventTimes), TaskLifecycle)]
         + Envelopes(c, tasks, found, k + 1, n, pick, eventIds, stamps, eventTimes)
  }

  /** `id` is handled by the loop between positions `k` (inclusive) and `end` (exclusive). */
  predicate HandledBetween(found: seq<Uuid>, id: Uuid, k: nat, end: nat)
  {
    id in found && k <= FirstIndex(found, id) < end
  }

  /** The table with the tasks handled between `k` and `end` reassigned. */
  function ReassignedTasks(c: Collaborators, tasks: map<Uuid, Task>, found: seq<Uuid>, k: nat, end: nat,
                           pick: nat -> User, stamps: nat -> Time): map<Uuid, Task>
  {
    map id | id in tasks ::
      if HandledBetween(found, id, k, end) then WithAssignee(c.entity, tasks[id], pick(FirstIndex(found, id)), stamps(FirstIndex(found, id)))
      else tasks[id]
  }

  /** One past the last position the loop persisted, when it stopped at `n`. */
  function Reached(found: seq<Uuid>, n: nat): nat
  {
    if n < |found| then n + 1 else n
  }

  /**
   * The result of the whole loop, described directly: with `n` the first
   * rejected position, the tasks up to and including position `n` are
   * reassigned, the envelopes before `n` are published, and the reply is 422
   * exactly when some envelope was rejected.
   */
  function ReassignClosed(c: Collaborators, s: State, found: seq<Uuid>,
                          pick: nat -> User, eventIds: nat -> Uuid, stamps: nat -> Time, eventTimes: nat -> Time): Step
    requires AllFound(s.tasks, found, 0)
  {
    var n := FirstRejected(c, s.tasks, found, 0, pick, eventIds, stamps, eventTimes);
    Step(State(ReassignedTasks(c, s.tasks, found, 0, Reached(found, n), pick, stamps),
               s.outbox + Envelopes(c, s.tasks, found, 0, n, pick, eventIds, stamps, eventTimes)),
         if n == |found| then Ok(EmptyList) else Fail(Unprocessable))
  }

  /** In a list without duplicates, the first occurrence of `s[i]` is `i`. */
  lemma FirstIndexOfDistinct<T>(s: seq<T>, i: nat)
    requires NoDuplicates(s)
    requires i < |s|
    ensures FirstIndex(s, s[i]) == i
  {
  }

  /** Reassigning the task at position `k` first, then those from `k + 1`, is reassigning those from `k`. */
  lemma ReassignedTasksStep(c: Collaborators, tasks: map<Uuid, Task>, found: seq<Uuid>, k: nat, end: nat,
                            pick: nat -> User, stamps: nat -> Time)
    requires NoDuplicates(found)
    requires k < end <= |found| && found[k] in tasks
    ensures ReassignedTasks(c, tasks[found[k] := WithAssignee(c.entity, tasks[found[k]], pick(k), stamps(k))], found, k + 1, end, pick, stamps)
            == ReassignedTasks(c, tasks, found, k, end, pick, stamps)
  {
    FirstIndexOfDistinct(found, k);
  }

  /** Publishing the envelope of position `k`, then those from `k + 1`, is publishing those from `k`. */
  lemma EnvelopesStep(c: Collaborators, tasks: map<Uuid, Task>, found: seq<Uuid>, k: nat, n: nat,
                      pick: nat -> User, eventIds: nat -> Uuid, stamps: nat -> Time, eventTimes: nat -> Time, outbox: seq<Published>)
    requires k < n <= |found|
    requires AllFound(tasks, found, k)
    ensures outbox + [Published(AssignedEnvelopeAt(c, tasks, found, k, pick, eventIds, stamps, eventTimes), TaskLifecycle)]
              + Envelopes(c, tasks, found, k + 1, n, pick, eventIds, stamps, eventTimes)
            == outbox + Envelopes(c, tasks, found, k, n, pick, eventIds, stamps, eventTimes)
  {
  }

  /** When the envelope at position `k` is rejected, the loop stops there with the closed-form state. */
  lemma RejectedAtIsClosed(c: Collaborators, t0: map<Uuid, Task>, s: State, found: seq<Uuid>,
                           k: nat, pick: nat -> User, eventIds: nat -> Uuid, stamps: nat -> Time, eventTimes: nat -> Time)
    requires k < |found|
    requires NoDuplicates(found)
    requires AllFound(s.tasks, found, k) && AllFound(t0, found, k)
    requires s.tasks[found[k]] == t0[found[k]]
    requires !c.schemaValid(AssignedEnvelopeAt(c, t0, found, k, pick, eventIds, stamps, eventTimes), AssignedSchema)
    ensures ReassignFrom(c, s, found, k, pick, eventIds, stamps, eventTimes)
            == Step(State(ReassignedTasks(c, s.tasks, found, k, k + 1, pick, stamps), s.outbox + []), Fail(Unprocessable))
  {
    FirstIndexOfDistinct(found, k);
    var t := WithAssignee(c.entity, s.tasks[found[k]], pick(k), stamps(k));
    assert ReassignedTasks(c, s.tasks, found, k, k + 1, pick, stamps) == s.tasks[found[k] := t];
    assert s.outbox + [] == s.outbox;
  }

  /**
   * The loop from position `k`, started in a state whose remaining tasks are
   * still as in `t0`, ends in the closed-form state.
   */
  lemma {:induction false} ReassignFromIsClosed(c: Collaborators, t0: map<Uuid, Task>, s: State, found: seq<Uuid>,
                                                k: nat, pick: nat -> User, eventIds: nat -> Uuid, stamps: nat -> Time, eventTimes: nat -> Time)
    requires k <= |found|
    requires NoDuplicates(found)
    requires AllFound(s.tasks, found, k) && AllFound(t0, found, k)
    requires forall i :: k <= i < |found| ==> s.tasks[found[i]] == t0[found[i]]
    ensures var n := FirstRejected(c, t0, found, k, pick, eventIds, stamps, eventTimes);
            ReassignFrom(c, s, found, k, pick, eventIds, stamps, eventTimes)
            == Step(State(ReassignedTasks(c, s.tasks, found, k, Reached(found, n), pick, stamps),
                          s.outbox + Envelopes(c, t0, found, k, n, pick, eventIds, stamps, eventTimes)),
                    if n == |found| then Ok(EmptyList) else Fail(Unprocessable))
    decreases |found| - k
  {
    if k == |found| {
      assert ReassignedTasks(c, s.tasks, found, k, k, pick, stamps) == s.tasks;
      assert s.outbox + [] == s.outbox;
    } else if !c.schemaValid(AssignedEnvelopeAt(c, t0, found, k, pick, eventIds, stamps, eventTimes), AssignedSchema) {
      RejectedAtIsClosed(c, t0, s, found, k, pick, eventIds, stamps, eventTimes);
    } else {
      var t := WithAssignee(c.entity, s.tasks[found[k]], pick(k), stamps(k));
      var e := AssignedEnvelopeAt(c, t0, found, k, pick, eventIds, stamps, eventTimes);
      var s2 := State(s.tasks[found[k] := t], s.outbox + [Published(e, TaskLifecycle)]);
      forall i | k + 1 <= i < |found|
        ensures s2.tasks[found[i]] == t0[found[i]]
      {
        assert found[i] != found[k];
      }
      ReassignFromIsClosed(c, t0, s2, found, k + 1, pick, eventIds, stamps, eventTimes);
      AcceptedAtIsClosed(c, t0, s, s2, found, k, pick, eventIds, stamps, eventTimes);
    }
  }

  /**
   * When the envelope at position `k` validates, the loop from `k` ends where
   * the loop from `k + 1` does, started after that task was persisted and its
   * envelope published; so the closed form from `k + 1` extends to `k`.
   */
  lemma AcceptedAtIsClosed(c: Collaborators, t0: map<Uuid, Task>, s: State, s2: State, found: seq<Uuid>,
                           k: nat, pick: nat -> User, eventIds: nat -> Uuid, stamps: nat -> Time, eventTimes: nat -> Time)
    requires k < |found|
    requires NoDuplicates(found)
    requires AllFound(s.tasks, found, k) && AllFound(t0, found, k)
    requires s.tasks[found[k]] == t0[found[k]]
    requires c.schemaValid(AssignedEnvelopeAt(c, t0, found, k, pick, eventIds, stamps, eventTimes), AssignedSchema)
    requires s2 == State(s.tasks[found[k] := WithAssignee(c.entity, s.tasks[found[k]], pick(k), stamps(k))],
                         s.outbox + [Published(AssignedEnvelopeAt(c, t0, found, k, pick, eventIds, stamps, eventTimes), TaskLifecycle)])
    requires AllFound(s2.tasks, found, k + 1)
    requires var n := FirstRejected(c, t0, found, k + 1, pick, eventIds, stamps, eventTimes);
             ReassignFrom(c, s2, found, k + 1, pick, eventIds, stamps, eventTimes)
             == Step(State(ReassignedTasks(c, s2.tasks, found, k + 1, Reached(found, n), pick, stamps),
                           s2.outbox + Envelopes(c, t0, found, k + 1, n, pick, eventIds, stamps, eventTimes)),
                     if n == |found| then Ok(EmptyList) else Fail(Unprocessable))
    ensures var n := FirstRejected(c, t0, found, k, pick, eventIds, stamps, eventTimes);
            ReassignFrom(c, s, found, k, pick, eventIds, stamps, eventTimes)
            == Step(State(ReassignedTasks(c, s.tasks, found, k, Reached(found, n), pick, stamps),
                          s.outbox + Envelopes(c, t0, found, k, n, pick, eventIds, stamps, eventTimes)),
                    if n == |found| then Ok(EmptyList) else Fail(Unprocessable))
  {
    var n := FirstRejected(c, t0, found, k + 1, pick, eventIds, stamps, eventTimes);
    assert ReassignFrom(c, s, found, k, pick, eventIds, stamps, eventTimes) == ReassignFrom(c, s2, found, k + 1, pick, eventIds, stamps, eventTimes);
    assert FirstRejected(c, t0, found, k, pick, eventIds, stamps, eventTimes) == n;
    ReassignedTasksStep(c, s.tasks, found, k, Reached(found, n), pick, stamps);
    EnvelopesStep(c, t0, found, k, n, pick, eventIds, stamps, eventTimes, s.outbox);
  }

  /** The mass-reassign loop over all of `found` ends in the closed-form state. */
  lemma ReassignLoopIsClosed(c: Collaborators, s: State, found: seq<Uuid>,
                             pick: nat -> User, eventIds: nat -> Uuid, stamps: nat -> Time, eventTimes: nat -> Time)
    requires NoDuplicates(found)
    requires AllFound(s.tasks, found, 0)
    ensures ReassignFrom(c, s, found, 0, pick, eventIds, stamps, eventTimes) == ReassignClosed(c, s, found, pick, eventIds, stamps, eventTimes)
  {
    ReassignFromIsClosed(c, s.tasks, s, found, 0, pick, eventIds, stamps, eventTimes);
  }
}

=== FILE: roles.dfy ===
/**
 * Role handling of the task tracker's user entity: the role list a user
 * reports, and the two capability predicates derived from it.
 */
module Roles {
  import opened Common

  type Role = string

  const RoleUser: Role := "ROLE_USER"
  const RoleAdmin: Role := "ROLE_ADMIN"
  const RoleManager: Role := "ROLE_MANAGER"

  /** The manager roles, in declaration order. */
  const ManagerRoles: seq<Role> := [RoleAdmin, RoleManager]

  /** A user; `roles` is the stored role list, which may hold duplicates. */
  datatype User = User(id: string, publicId: Uuid, email: string, name: string, roles: seq<Role>)

  /**
   * `array_unique` on a list: every distinct element once, at the position
   * of its first occurrence, in the order of first occurrences.
   */
  function Unique<T(==,!new)>(s: seq<T>): (r: seq<T>)
    ensures forall x :: x in r <==> x in s
    ensures NoDuplicates(r)
    ensures forall i, j :: 0 <= i < j < |r| ==> FirstIndex(s, r[i]) < FirstIndex(s, r[j])
    decreases |s|
  {
    if |s| == 0 then []
    else
      var init := s[..|s| - 1];
      var last := s[|s| - 1];
      var prefix := Unique(init);
      assert s == init + [last];
      assert forall x :: x in init ==> FirstIndex(s, x) == FirstIndex(init, x) by {
        forall x | x in init {
          FirstIndexOfPrefix(init, [last], x);
        }
      }
      if last in prefix then prefix
      else
        assert FirstIndex(s, last) == |s| - 1;
        prefix + [last]
  }

  /** `getRoles`: the stored roles with ROLE_USER appended, duplicates removed. */
  function GetRoles(u: User): (r: seq<Role>)
    ensures RoleUser in r
    ensures forall x :: x in r <==> x in u.roles || x == RoleUser
    ensures NoDuplicates(r)
    ensures r == Unique(u.roles) + (if RoleUser in u.roles then [] else [RoleUser])
  {
    var s := u.roles + [RoleUser];
    assert s[..|s| - 1] == u.roles;
    Unique(s)
  }

  /** The `foreach ... in_array` loop: does `held` contain any of `candidates`? */
  function AnyHeld(candidates: seq<Role>, held: seq<Role>): (b: bool)
    ensures b <==> exists c :: c in candidates && c in held
    decreases |candidates|
  {
    if |candidates| == 0 then false
    else candidates[0] in held || AnyHeld(candidates[1..], held)
  }

  /** `array_diff`: the elements of `a` that do not occur in `b`, in order. */
  function Difference(a: seq<Role>, b: seq<Role>): (r: seq<Role>)
    ensures forall x :: x in r <==> x in a && x !in b
    ensures |r| <= |a|
    decreases |a|
  {
    if |a| == 0 then []
    else (if a[0] in b then [] else [a[0]]) + Difference(a[1..], b)
  }

  /** `canManageTasks`: some manager role is among the user's roles. */
  function CanManageTasks(u: User): (b: bool)
    ensures b <==> RoleAdmin in u.roles || RoleManager in u.roles
    ensures b == AnyHeld(ManagerRoles, u.roles)
  {
    var held := GetRoles(u);
    assert AnyHeld(ManagerRoles, held) == (RoleAdmin in held || RoleManager in held) by {
      assert ManagerRoles[1..] == [RoleManager];
      assert ManagerRoles[1..][1..] == [];
    }
    assert AnyHeld(ManagerRoles, u.roles) == (RoleAdmin in u.roles || RoleManager in u.roles) by {
      assert ManagerRoles[1..] == [RoleManager];
      assert ManagerRoles[1..][1..] == [];
    }
    AnyHeld(ManagerRoles, held)
  }

  /**
   * `mightBeAssignedToTask`, taken literally: the manager roles are NOT all
   * held. Only a user holding both manager roles is unassignable.
   */
  function MightBeAssignedToTask(u: User): (b: bool)
    ensures b <==> RoleAdmin !in u.roles || RoleManager !in u.roles
    ensures b == (|Difference(ManagerRoles, u.roles)| > 0)
    ensures !b ==> CanManageTasks(u)
  {
    var missing := Difference(ManagerRoles, GetRoles(u));
    assert RoleAdmin !in u.roles ==> RoleAdmin in missing;
    assert RoleManager !in u.roles ==> RoleManager in missing;
    assert |missing| > 0 ==> missing[0] in missing;
    |missing| > 0
  }
}

=== FILE: store.dfy ===
/**
 * The task tracker's observable state — the task table keyed by public id
 * and the outbox of envelopes handed to the message producer — and the
 * replies a controller action returns.
 */
module Store {
  import opened Common
  import opened Tasks
  import opened Events

  const BadRequest: int := 400
  const Unauthorized: int := 401
  const Unprocessable: int := 422

  datatype State = State(tasks: map<Uuid, Task>, outbox: seq<Published>)

  datatype Body = TaskBody(task: Task) | TaskListBody(tasks: map<Uuid, Task>) | EmptyList

  /** A JSON response, or the status code of the HttpException thrown. */
  datatype Reply = Ok(body: Body) | Fail(code: int)

  /** The state after an action, whether or not it threw. */
  datatype Step = Step(state: State, reply: Reply)

  /** Collaborators whose code is not part of this model. */
  datatype Collaborators = Collaborators(
    entity: TaskEntity,
    producer: string,                            // class name of the message producer
    schemaValid: (Envelope, string) -> bool)     // JSON-schema validation of an envelope

  /** Every task is stored under its own public id. */
  predicate WellKeyed(tasks: map<Uuid, Task>)
  {
    forall id :: id in tasks ==> tasks[id].publicId == id
  }

  /** Every published envelope follows the event contract. */
  predicate OutboxFollowsContract(outbox: seq<Published>)
  {
    forall j :: 0 <= j < |outbox| ==> FollowsEventContract(outbox[j])
  }

  /** The outbox grew by envelopes that all follow the contract. */
  predicate AppendedByContract(before: seq<Published>, after: seq<Published>)
  {
    before <= after && forall j :: |before| <= j < |after| ==> FollowsEventContract(after[j])
  }

  /** Appending envelopes that each follow the contract appends by contract. */
  lemma AppendingByContract(before: seq<Published>, added: seq<Published>)
    requires forall k :: 0 <= k < |added| ==> FollowsEventContract(added[k])
    ensures AppendedByContract(before, before + added)
  {
    forall j | |before| <= j < |before + added|
      ensures FollowsEventContract((before + added)[j])
    {
      assert (before + added)[j] == added[j - |before|];
    }
  }

  /** The envelope passed the schema the controller validates an event of its name against. */
  predicate PassedItsSchema(c: Collaborators, e: Envelope)
  {
    && (e.name == TaskCreatedName ==> c.schemaValid(e, CreatedSchema))
    && (e.name == TaskCompletedName ==> c.schemaValid(e, CompletedSchema))
    && (e.name == TaskAssignedName ==> c.schemaValid(e, AssignedSchema))
  }

  /** Every envelope appended after `before` passed its schema. */
  predicate AppendedValidated(c: Collaborators, before: seq<Published>, after: seq<Published>)
  {
    forall j :: |before| <= j < |after| ==> PassedItsSchema(c, after[j].envelope)
  }

  /** `persist` + `flush`. */
  function Persist(s: State, id: Uuid, t: Task): State
  {
    s.(tasks := s.tasks[id := t])
  }

  /** `publish` on the producer. */
  function Publish(s: State, e: Envelope, routingKey: string): State
  {
    s.(outbox := s.outbox + [Published(e, routingKey)])
  }

  /** Publishes `e` only when it validates against `schema`; otherwise 422. */
  function ValidateAndPublish(c: Collaborators, s: State, e: Envelope, schema: string,
                              routingKey: string, body: Body): Step
  {
    if c.schemaValid(e, schema) then Step(Publish(s, e, routingKey), Ok(body))
    else Step(s, Fail(Unprocessable))
  }
}

=== FILE: tasks.dfy ===
/**
 * The task entity as the task controller uses it. The entity class itself
 * (Task.php) is not part of this model: what its status-changing methods do
 * is kept abstract in TaskEntity, as functions over the status: the methods
 * are assumed to change nothing but the status, and `setAssignee` also the
 * assignee.
 */
module Tasks {
  import opened Common
  import opened Roles

  /** Task statuses; the controller itself only names STATUS_ASSIGNED. */
  datatype Status = Created | Assigned | Completed

  datatype Task = Task(
    publicId: Uuid,
    name: string,
    jiraId: string,
    owner: User,
    assignee: User,
    status: Status,
    updatedAt: Time)

  /** The behaviour of the task entity's methods, as functions over its status. */
  datatype TaskEntity = TaskEntity(
    initialStatus: Status,                    // status of a freshly constructed task
    afterAssign: Status -> Status,            // effect of setAssignee on the status
    mightBeMarkedAsCompleted: Status -> bool,
    complete: Status -> Status)

  /** A freshly constructed task with the given fields set and an assignee attached. */
  function NewTask(e: TaskEntity, publicId: Uuid, name: string, jiraId: string,
                   owner: User, assignee: User, now: Time): Task
  {
    Task(publicId, name, jiraId, owner, assignee, e.afterAssign(e.initialStatus), now)
  }

  /** `setAssignee` followed by `setUpdatedAt`. */
  function WithAssignee(e: TaskEntity, t: Task, assignee: User, now: Time): Task
  {
    t.(assignee := assignee, status := e.afterAssign(t.status), updatedAt := now)
  }

  /** `complete()`. */
  function WithCompletion(e: TaskEntity, t: Task): Task
  {
    t.(status := e.complete(t.status))
  }

  /** The identity fields a controller step never rewrites. */
  predicate SameIdentity(t: Task, u: Task)
  {
    t.publicId == u.publicId && t.name == u.name && t.jiraId == u.jiraId && t.owner == u.owner
  }
}
